=== FILE: README.md ===
# pix2pix control logic in Dafny

A model of the rules in `pix2pix.py` that decide what a pix2pix run does
around the network: which image files become examples and in what order,
how each 64 x 512 image is cut into an input half and a target half, how
many steps a run takes, which periodic actions (summary, progress, trace,
display, save) fire at each step, how the global step is shown as an
epoch and a step within it, which options a test or export run takes from
its checkpoint, and how `save_images` names its files.

Modules, one per concern:

- `Common`: modes, the error kinds the program raises, `Option` and `Result`.
- `PyArith`: Python's `//`, `%`, `math.ceil(a / b)` and prefix slicing `s[:n]`.
- `PathNames`: `os.path.basename`, the root of `os.path.splitext`,
  `get_name`, the `glob` match for `"*" + ext`, `str.isdigit`, `int(...)`,
  `str(...)` and Python's string ordering.
- `Sorting`: Python's stable `sorted` as an insertion sort under any total
  preorder.
- `Discovery`: `load_examples` without the tensor pipeline.
- `PairSplit`: the column split at 256 and the direction choice.
- `Schedule`: the step budget, `should(freq)`, the training loop's action
  log and the progress display.
- `Options`: the checkpoint option override.
- `FileNames`: the names `save_images` gives its files.

The directory listing, the checkpoint's saved options, the global step and
the supervisor's stop request come from the environment and are
parameters. Image pixels are an abstract type: only their positions matter.

## Model

| member | source | states |
|---|---|---|
| Discovery.Glob | pix2pix.py:195-199 | a glob returns no more entries than the listing holds; its contents and order are stated by the three lemmas below |
| Discovery.GlobMembers | pix2pix.py:195-199 | a path is returned exactly when it is listed and its visible base name ends with the extension, and as many times as it is listed |
| Discovery.GlobOne | pix2pix.py:195-199 | a single entry is returned exactly when it matches |
| Discovery.GlobAppend | pix2pix.py:195-199 | globbing a listing split in two gives the first part's matches followed by the second part's, so matches keep listing order |
| Discovery.Discover | pix2pix.py:191-202 | a missing directory is an error; any `.jpg` match gives the `.jpg` glob; with no `.jpg` match and some `.png` match the result is exactly the `.png` glob; the result is never empty, and "no image files" is returned exactly when neither glob matches |
| Discovery.DiscoverFormats | pix2pix.py:195-202 | "no image files" holds exactly when no listed entry matches either pattern; JPEG is chosen exactly when some entry matches `*.jpg`; PNG is chosen exactly when none matches `*.jpg` and some entry matches `*.png` |
| Discovery.Truncate | pix2pix.py:204-205 | the kept paths are a prefix of the discovery order; no or zero `max_examples` keeps all; a positive one keeps `min(max_examples, len)`; a negative one drops that many from the end |
| PathNames.MatchesGlob | pix2pix.py:195-198 | the glob for "*" + ext keeps a path whose base name ends with ext and does not start with a dot; for an extension such a name is longer than the extension |
| PathNames.IsDigits | pix2pix.py:215 | `str.isdigit()` on ASCII: a digit name is non-empty and holds neither a dot nor a separator |
| PathNames.Digits | pix2pix.py:510 | `str(n)`: non-empty decimal digits with no leading zero |
| Discovery.AllNumeric | pix2pix.py:215-216 | when every name is all digits, every path's sort key is `int` of its name |
| PairSplit.WellShaped | pix2pix.py:229-230 | an accepted image has 64 rows of 512 = 2 * 256 pixels |
| PathNames.Basename | pix2pix.py:210 | the base name holds no separator and is no longer than the path |
| PathNames.Stem | pix2pix.py:210 | the `splitext` root is a prefix of the name |
| PathNames.GetName | pix2pix.py:209-211 | `get_name` holds no separator and is no longer than the path |
| PathNames.BasenameIsLastComponent | pix2pix.py:209-211 | the base name is a suffix of the path with no separator, and is preceded by a separator unless it is the whole path |
| PathNames.LastDotIsLast | pix2pix.py:209-211 | the index found holds a dot and no later character is a dot; -1 means there is no dot |
| PathNames.StemSplitsAtLastDot | pix2pix.py:209-211 | the root is a prefix of the name; a shorter root is followed by one dot and a dot-free extension and is not all dots; an unchanged name has no dot or only dots before its last dot |
| PathNames.GetNameOfJoin | pix2pix.py:195-211 | `get_name` of "dir/stem.ext" gives back the stem, and that path matches the glob for the extension |
| PathNames.BasenameOfJoin | pix2pix.py:209-211 | the base name of "dir/name" is `name` when `name` holds no separator |
| PathNames.StemWithExtension | pix2pix.py:209-211 | `splitext` cuts a visible name exactly before its extension |
| PathNames.DecimalValue | pix2pix.py:216 | `int(s)` of a digit string written without leading zeros prints back as `s` |
| PathNames.DecimalValueOfDigits | pix2pix.py:216 | `int(str(n)) == n` for every natural number |
| PathNames.DecimalValueLeadingZeros | pix2pix.py:216 | leading zeros do not change `int(...)`, so "01" and "1" have the same key |
| PathNames.LexLe | pix2pix.py:218 | Python's string `<=`: a prefix is at most every string that extends it |
| PathNames.LexLeTotal | pix2pix.py:218 | any two strings are comparable |
| PathNames.LexLeTransitive | pix2pix.py:218 | string order is transitive |
| PathNames.LexLeAntisymmetric | pix2pix.py:218 | strings that are each at most the other are equal |
| PathNames.LexLeCommonPrefix | pix2pix.py:218 | a common prefix does not change the order of two strings |
| Sorting.Sort | pix2pix.py:216-218 | `sorted` keeps the length; permutation, order and stability are the lemmas below |
| Sorting.SortPermutes | pix2pix.py:216-218 | sorting returns a permutation of its input |
| Sorting.SortSorted | pix2pix.py:216-218 | under a total preorder every item is at most every later item |
| Sorting.SortStable | pix2pix.py:216 | items with equal keys keep their input order |
| Sorting.InsertPermutes | pix2pix.py:216-218 | insertion adds the new item and loses nothing |
| Sorting.InsertAdjacentSorted | pix2pix.py:216-218 | under a total comparison, insertion into an ordered list keeps it ordered |
| Sorting.AdjacentToSorted | pix2pix.py:216-218 | with a transitive comparison, neighbours in order means all pairs in order |
| Discovery.NumericKey | pix2pix.py:216 | the sort key `int(get_name(path))`: for a name written without leading zeros, the key prints back as the name |
| Discovery.NumericLeIsPreorder | pix2pix.py:216 | comparing by `int(get_name(path))` is a total preorder |
| Discovery.LexLeIsPreorder | pix2pix.py:218 | comparing paths as strings is a total preorder |
| Discovery.OrderPaths | pix2pix.py:215-218 | the ordered paths are a permutation of the kept paths |
| Discovery.OrderPathsNumeric | pix2pix.py:215-216 | when every name is all digits, the result is ordered by integer value of the names and equal values keep their discovery order |
| Discovery.OrderPathsLex | pix2pix.py:215-218 | when some name is not all digits, the result is ordered as strings |
| Discovery.NumericOrderExample | pix2pix.py:213-216 | "2", "10", "1" come out as 1, 2, 10 and not in string order |
| Discovery.LexOrderExample | pix2pix.py:217-218 | "b", "a" come out as a, b when a name is not numeric |
| Discovery.StepsPerEpoch | pix2pix.py:250 | a zero batch size is an error; for a positive batch size the result is the least number of batches covering every example; for a negative one it is the ceiling of the negative quotient |
| Discovery.StepsPerEpochExample | pix2pix.py:250 | ten examples in batches of three give four steps per epoch |
| Discovery.LoadExamples | pix2pix.py:191-250 | the errors in program order: discovery's error as it is, then "invalid direction", then a refused negative batch size at the batching queue, then division by zero for a zero batch size; on success the paths are exactly the kept paths in the program's order (a permutation of them), the count is their number, a positive `max_examples` bounds it, the format is the one discovery chose, the direction is the parsed one, and steps per epoch is computed from the count |
| Discovery.LoadedPathsOrdered | pix2pix.py:204-218 | the loaded paths are numeric exactly when the kept ones are, and are in value order, with names of equal value in discovery order, or in string order accordingly |
| PairSplit.ParseDirection | pix2pix.py:242-247 | "AtoB" and "BtoA" are accepted, each exactly for its own string; anything else is "invalid direction" |
| PairSplit.SplitColumns | pix2pix.py:238-239 | the left half is columns 0..255 and the right half columns 256..511 of every row |
| PairSplit.JoinOfSplit | pix2pix.py:238-239 | putting the two halves side by side gives back the image |
| PairSplit.SplitOfJoin | pix2pix.py:238-239 | splitting two 64 x 256 halves put side by side gives back the halves |
| PairSplit.LoadPair | pix2pix.py:225-247 | a bad direction is reported before a bad shape; on success both halves are 64 x 256 and input plus target (AtoB) or target plus input (BtoA) is each row |
| PairSplit.DirectionsSwap | pix2pix.py:242-247 | both directions accept exactly the well-shaped images, and BtoA is AtoB with input and target swapped |
| Schedule.RequestedSteps | pix2pix.py:698-702 | `max_steps` when given, else `steps_per_epoch * max_epochs` when given, else 2**32 |
| Schedule.StepBudget | pix2pix.py:698-707 | outside test mode the requested budget; in test mode the smaller of one epoch and the request |
| Schedule.MaxStepsOverridesEpochs | pix2pix.py:699-702 | with `max_steps` given, `max_epochs` has no effect, and training runs exactly `max_steps` |
| Schedule.TestRunsAtMostOneEpoch | pix2pix.py:704-708 | a test run does at most one epoch of iterations, exactly one when asked for one or more epochs and no `max_steps` is given, and one epoch capped at 2**32 by default |
| Schedule.Iterations | pix2pix.py:708 | `range(n)` runs n times, and not at all for a negative n |
| Schedule.Should | pix2pix.py:721-722 | `should(freq)` holds exactly when freq > 0 and either step + 1 is a multiple of freq under Python's `%` or the step is the last one |
| Schedule.ShouldEdges | pix2pix.py:721-722 | a frequency of 0 or less never fires; a positive one always fires at the last step |
| Schedule.ShouldAtPeriodEnds | pix2pix.py:721-722 | a positive frequency fires at steps freq - 1, 2 freq - 1, ... |
| Schedule.FireCountBeforeLast | pix2pix.py:721-722 | before the last step an action fires once per full period |
| Schedule.FireCountOfRun | pix2pix.py:720-722 | over a run of `max_steps` steps an enabled action fires ceil(max_steps / freq) times |
| Schedule.FiredAt | pix2pix.py:726-778 | an action is in a step's set exactly when `should` holds for its frequency |
| Schedule.TrainingSchedule | pix2pix.py:720-782 | one entry per step run, stopping after the step at which the supervisor asks to stop; each entry holds exactly the actions `should` selects |
| Schedule.LastStepFiresAllEnabled | pix2pix.py:721-722 | at the last step exactly the enabled actions fire, including the final save |
| Schedule.ProgressOf | pix2pix.py:767-768 | a zero `steps_per_epoch` is a division error; for a positive `steps_per_epoch` the step is in 1..spe and (epoch - 1) * spe + step is the global step |
| Schedule.ProgressUnique | pix2pix.py:767-768 | the displayed pair is the only pair with that property |
| Schedule.ProgressAdvances | pix2pix.py:767-768 | one more global step moves to the next step, or to step 1 of the next epoch |
| Schedule.CeilDivOfPredecessor | pix2pix.py:767-768 | ceil(g / s) equals (g - 1) // s + 1 for a positive s |
| PyArith.FloorDiv | pix2pix.py:768 | Python `//` rounds toward minus infinity |
| PyArith.PyMod | pix2pix.py:768 | Python `%` pairs with `//` and takes the divisor's sign |
| PyArith.CeilDiv | pix2pix.py:250 | for a positive divisor b, the least q with q * b >= a; for a negative one, the least q with q * b <= a |
| PyArith.CeilDivUnique | pix2pix.py:250 | q is the ceiling exactly when (q - 1) * b < a <= q * b |
| PyArith.SlicePrefix | pix2pix.py:205 | `s[:n]` is a prefix of `s` of the length Python slicing gives, for negative n too |
| Options.ApplyCheckpoint | pix2pix.py:559-569 | train keeps the options; test and export need a checkpoint and its options file; the result has exactly the old keys plus the saved ones among `which_direction`, `ngf`, `ndf`, takes those from the checkpoint and leaves every other option alone |
| Options.ApplyCheckpointIdempotent | pix2pix.py:564-569 | applying the same checkpoint again changes nothing |
| Options.CheckpointDirectionWins | pix2pix.py:564-569 | a saved direction decides the direction whatever the command line said |
| FileNames.PadDigits | pix2pix.py:510 | zero padding to a width keeps the value and gives at least that many digits |
| FileNames.Format08 | pix2pix.py:510 | `%08d` of n >= 0 is exactly max(8, len(str(n))) digits whose value is n; of n < 0 it is a '-' followed by max(7, len(str(-n))) digits whose value is -n |
| FileNames.FileNameOf | pix2pix.py:508-510 | the name ends in "-kind.png"; before that suffix there is exactly the image name, preceded by nothing or by the padded step and "-" |
| FileNames.ImageFileName | pix2pix.py:505-510 | the file name for a path holds no separator, so it stays inside the images directory, ends in "-kind.png", and without a step is `get_name` of the path before that suffix |
| FileNames.NoSepInFileName | pix2pix.py:505-511 | a name without separators gives a file name without separators |
| FileNames.KindFromSuffix | pix2pix.py:508 | the kind and the name can be read back from a file name |
| FileNames.FileNamesDistinct | pix2pix.py:508-510 | different (name, kind, step) triples give different file names, when both names carry a step or neither does |
| FileNames.ImageFileNamesDistinct | pix2pix.py:505-510 | two files get the same name only for the same image name, kind and step, when both names carry a step or neither does |

## Left out

- Networks, losses, optimisers, summaries and the TensorFlow graph: not control logic.
- Image decoding, `preprocess` scaling to [-1, 1] and the float conversion: the pixel type is abstract.
- Queues, shuffling and batching of paths: the model keeps the ordered list that is fed to the queue.
- Session, supervisor, checkpoint restore and save, export: the stop request is a parameter and the actions fired are recorded, not performed.
- Writing images and the HTML index: only the file names are modelled.
- Argument parsing and seeding: options are parameters; the command line's `choices` restriction is not assumed, since a checkpoint can set any direction string.
- Schedule.ProgressOf: the global step is a parameter, because its value comes from the session alongside the train op; the true division before `ceil` is exact here, so the float rounding of global steps beyond 2**53 is not modelled; nothing is promised for a negative `steps_per_epoch`, which a successful load never produces.
- PathNames.IsDigits: only ASCII digits are digits; Python's `isdigit` also accepts other Unicode digits.
- Discovery.StepsPerEpoch: the true division before `ceil` is exact here; the float rounding of very large counts is not modelled.
- Options.ApplyCheckpoint: the saved options are a map; a JSON file that is not an object, or unreadable JSON, is not modelled.
- Schedule.RequestedSteps: a given `max_steps` of 0 is a budget of 0, as the code does, although the option's help text says 0 disables it.
- Discovery.Truncate: a negative `max_examples` is modelled as Python slicing does it, which can leave no paths after the "no image files" check.
- Discovery.LoadExamples: when a negative `max_examples` leaves no paths, the model returns an empty example list with count 0; the run itself then fails inside the input queue, which is library behaviour outside this model. The refusal of a negative batch size is also the batching library's, modelled as an error just after the direction check.
- PathNames.Basename: paths follow POSIX rules only: '/' is the one separator and the glob match is case-sensitive; on Windows '\\' also separates and matching folds case, so `X.JPG` would match `*.jpg`.
- The image shape assertion fires when an image is read, after the direction check at graph construction; `PairSplit.LoadPair` reports the direction error first for that reason.

=== FILE: common.dfy ===
/** Shared vocabulary of the model: the run mode chosen on the command line,
    the fatal errors the program raises, and the Result/Option wrappers used
    in place of Python exceptions and `None`. */
module Common {

  /** The value of the `--mode` flag. */
  datatype Mode = Train | Test | Export

  /** Every exception the modelled rules can raise. */
  datatype Error =
    | InputDirMissing        // input_dir is None or does not exist
    | NoImageFiles           // neither *.jpg nor *.png matched
    | InvalidDirection       // which_direction is neither "AtoB" nor "BtoA"
    | BadImageShape          // the decoded raster is not 64 x 512
    | DivisionByZero         // a zero divisor in Python arithmetic
    | NegativeBatchSize      // the batching queue rejects a negative batch size
    | CheckpointRequired     // test/export mode without --checkpoint
    | CheckpointOptionsMissing // the checkpoint directory has no readable options.json

  datatype Option<+T> = None | Some(value: T)

  datatype Result<+T> = Ok(value: T) | Err(error: Error)

  function Min(a: int, b: int): int { if a <= b then a else b }

  function Max(a: int, b: int): int { if a >= b then a else b }
}

=== FILE: discovery.dfy ===
/** The list logic of `load_examples` (pix2pix.py): which files are inputs,
    how many are kept, their order, and how many batches make an epoch. The
    directory listing is a parameter, in the order the operating system
    lists it; `None` stands for an `input_dir` that is unset or missing. */
module Discovery {
  import opened Common
  import opened PyArith
  import opened PathNames
  import opened Sorting
  import PairSplit

  /** Which decoder the discovered files are given to. */
  datatype Format = Jpeg | Png

  /** The integer fields of the `Examples` tuple, plus the ordered paths
      and the decoder choice. */
  datatype Examples = Examples(
    paths: seq<string>,
    format: Format,
    direction: PairSplit.Direction,
    count: nat,
    stepsPerEpoch: int)

  /** The glob of the input directory for one extension: the listed paths
      that match, in listing order. */
  function Glob(listing: seq<string>, ext: string): (r: seq<string>)
    ensures |r| <= |listing|
  {
    if |listing| == 0 then []
    else (if MatchesGlob(listing[0], ext) then [listing[0]] else []) + Glob(listing[1..], ext)
  }

  /** A path is returned exactly when it is listed and matches, and as many
      times as it is listed. */
  lemma {:induction false} GlobMembers(listing: seq<string>, ext: string)
    ensures var r := Glob(listing, ext);
      && (forall p :: p in r <==> p in listing && MatchesGlob(p, ext))
      && (forall p :: p in listing && MatchesGlob(p, ext) ==> multiset(r)[p] == multiset(listing)[p])
  {
    if |listing| > 0 {
      GlobMembers(listing[1..], ext);
      assert listing == [listing[0]] + listing[1..];
    }
  }

  /** A single entry is returned exactly when it matches. */
  lemma GlobOne(p: string, ext: string)
    ensures Glob([p], ext) == if MatchesGlob(p, ext) then [p] else []
  {
    assert [p][1..] == [];
  }

  lemma GlobCons(p: string, t: seq<string>, ext: string)
    ensures Glob([p] + t, ext) == (if MatchesGlob(p, ext) then [p] else []) + Glob(t, ext)
  {
    assert ([p] + t)[0] == p && ([p] + t)[1..] == t;
  }

  /** Globbing a listing in two parts gives the two parts' matches in the
      same order: with `GlobOne`, the matches are the listing's matching
      entries in listing order. */
  lemma {:induction false} GlobAppend(a: seq<string>, b: seq<string>, ext: string)
    ensures Glob(a + b, ext) == Glob(a, ext) + Glob(b, ext)
  {
    if |a| > 0 {
      var p, t := a[0], a[1..];
      var h := if MatchesGlob(p, ext) then [p] else [];
      assert a == [p] + t && a + b == [p] + (t + b);
      GlobCons(p, t, ext);
      GlobCons(p, t + b, ext);
      GlobAppend(t, b, ext);
      assert h + (Glob(t, ext) + Glob(b, ext)) == (h + Glob(t, ext)) + Glob(b, ext);
    } else {
      assert a + b == b;
    }
  }

  /** The `.jpg`-then-`.png` discovery with its two errors. */
  function Discover(listing: Option<seq<string>>): (r: Result<(seq<string>, Format)>)
    ensures listing.None? ==> r == Err(InputDirMissing)
    ensures r.Ok? ==> |r.value.0| > 0
    ensures r.Ok? && r.value.1 == Jpeg ==> r.value.0 == Glob(listing.value, ".jpg")
    ensures r.Ok? && r.value.1 == Png ==>
              Glob(listing.value, ".jpg") == [] && r.value.0 == Glob(listing.value, ".png")
    ensures listing.Some? ==>
              (r == Err(NoImageFiles) <==> Glob(listing.value, ".jpg") == [] && Glob(listing.value, ".png") == [])
    ensures listing.Some? && Glob(listing.value, ".jpg") != [] ==> r.Ok? && r.value.1 == Jpeg
    ensures listing.Some? && Glob(listing.value, ".jpg") == [] && Glob(listing.value, ".png") != [] ==>
              r == Ok((Glob(listing.value, ".png"), Png))
  {
    match listing
    case None => Err(InputDirMissing)
    case Some(entries) =>
      var jpgs := Glob(entries, ".jpg");
      if |jpgs| > 0 then Ok((jpgs, Jpeg))
      else
        var pngs := Glob(entries, ".png");
        if |pngs| > 0 then Ok((pngs, Png)) else Err(NoImageFiles)
  }

  /** Discovery fails with "no image files" exactly when no visible entry
      ends in ".jpg" or ".png", and prefers ".jpg" whenever one exists. */
  lemma DiscoverFormats(entries: seq<string>)
    ensures Discover(Some(entries)) == Err(NoImageFiles) <==>
              forall p :: p in entries ==> !MatchesGlob(p, ".jpg") && !MatchesGlob(p, ".png")
    ensures (exists p :: p in entries && MatchesGlob(p, ".jpg")) <==>
              Discover(Some(entries)).Ok? && Discover(Some(entries)).value.1 == Jpeg
    ensures (forall p :: p in entries ==> !MatchesGlob(p, ".jpg"))
            && (exists p :: p in entries && MatchesGlob(p, ".png")) <==>
              Discover(Some(entries)).Ok? && Discover(Some(entries)).value.1 == Png
  {
    var jpgs := Glob(entries, ".jpg");
    var pngs := Glob(entries, ".png");
    GlobMembers(entries, ".jpg");
    GlobMembers(entries, ".png");
    if jpgs != [] {
      assert jpgs[0] in entries && MatchesGlob(jpgs[0], ".jpg");
    } else if pngs != [] {
      assert pngs[0] in entries && MatchesGlob(pngs[0], ".png");
    }
  }

  /** The `max_examples` cut: when the option is given and non-zero and
      there are more paths than it, only that many are kept from the front.
      The result is always a prefix of the discovery order. A negative
      `max_examples` counts from the end, as Python slicing does. */
  function Truncate(paths: seq<string>, maxExamples: Option<int>): (r: seq<string>)
    ensures r <= paths
    ensures maxExamples.None? || maxExamples.value == 0 ==> r == paths
    ensures maxExamples.Some? && maxExamples.value > 0 ==> |r| == Min(maxExamples.value, |paths|)
    ensures maxExamples.Some? && maxExamples.value < 0 ==> |r| == Max(0, |paths| + maxExamples.value)
  {
    match maxExamples
    case None => paths
    case Some(m) => if m != 0 && |paths| > m then SlicePrefix(paths, m) else paths
  }

  /** `int(get_name(path))` when the name is all digits; 0 otherwise (the
      numeric order is only used when every name is all digits). */
  function NumericKey(path: string): (key: nat)
    ensures Canonical(GetName(path)) ==> Digits(key) == GetName(path)
  {
    var name := GetName(path);
    if IsDigits(name) then DecimalValue(name) else 0
  }

  /** The comparison used when every name is a number: paths compare by the
      integer value of their names. */
  predicate NumericLe(p: string, q: string) {
    NumericKey(p) <= NumericKey(q)
  }

  /** Whether every path's name is all digits, so that sorting by the
      integer value of the names is chosen; then each key is that value. */
  predicate AllNumeric(paths: seq<string>)
    ensures AllNumeric(paths) ==> forall i :: 0 <= i < |paths| ==>
              AllDigitChars(GetName(paths[i]))
              && NumericKey(paths[i]) == DecimalValue(GetName(paths[i]))
  {
    forall i :: 0 <= i < |paths| ==> IsDigits(GetName(paths[i]))
  }

  lemma NumericLeIsPreorder()
    ensures TotalPreorder(NumericLe)
  {
  }

  lemma LexLeIsPreorder()
    ensures TotalPreorder(LexLe)
  {
    forall x, y
      ensures LexLe(x, y) || LexLe(y, x)
    {
      LexLeTotal(x, y);
    }
    forall x, y, z | LexLe(x, y) && LexLe(y, z)
      ensures LexLe(x, z)
    {
      LexLeTransitive(x, y, z);
    }
  }

  /** The sort step: by integer value of the names when all of them are
      digit strings, otherwise by the whole path as a string. Either way the
      result is a reordering of the input; `OrderPathsNumeric` and
      `OrderPathsLex` state the order. */
  function OrderPaths(paths: seq<string>): (r: seq<string>)
    ensures multiset(r) == multiset(paths)
  {
    SortPermutes(paths, NumericLe);
    SortPermutes(paths, LexLe);
    if AllNumeric(paths) then Sort(paths, NumericLe) else Sort(paths, LexLe)
  }

  /** All-digit names come out in increasing integer value, and names of
      equal value (such as "1" and "01") keep their discovery order. */
  lemma OrderPathsNumeric(paths: seq<string>)
    requires AllNumeric(paths)
    ensures var r := OrderPaths(paths);
      && AllNumeric(r)
      && (forall i, j :: 0 <= i < j < |r| ==>
            DecimalValue(GetName(r[i])) <= DecimalValue(GetName(r[j])))
      && Stable(paths, r, NumericLe)
  {
    var r := OrderPaths(paths);
    NumericLeIsPreorder();
    SortSorted(paths, NumericLe);
    SortStable(paths, NumericLe);
    assert forall i :: 0 <= i < |r| ==> r[i] in multiset(paths);
  }

  /** Any other set of names comes out in string order of the whole path. */
  lemma OrderPathsLex(paths: seq<string>)
    requires !AllNumeric(paths)
    ensures var r := OrderPaths(paths);
      && !AllNumeric(r)
      && forall i, j :: 0 <= i < j < |r| ==> LexLe(r[i], r[j])
  {
    var r := OrderPaths(paths);
    LexLeIsPreorder();
    SortSorted(paths, LexLe);
    var k :| 0 <= k < |paths| && !IsDigits(GetName(paths[k]));
    assert paths[k] in multiset(r);
  }

  /** The key of "dir/digits.ext" is the integer value of the digits. */
  lemma NumericKeyOfJoin(dir: string, digits: string, ext: string)
    requires IsDigits(digits) && IsExtension(ext)
    ensures IsDigits(GetName(dir + [Sep] + digits + ext))
    ensures NumericKey(dir + [Sep] + digits + ext) == DecimalValue(digits)
  {
    GetNameOfJoin(dir, digits, ext);
  }

  lemma KeyOfTwo()
    ensures IsDigits(GetName("d/2.png")) && NumericKey("d/2.png") == 2
  {
    assert "d/2.png" == "d" + [Sep] + "2" + ".png";
    NumericKeyOfJoin("d", "2", ".png");
    assert DecimalValue("2") == 2 by { assert "2"[..0] == ""; }
  }

  lemma KeyOfTen()
    ensures IsDigits(GetName("d/10.png")) && NumericKey("d/10.png") == 10
  {
    assert "d/10.png" == "d" + [Sep] + "10" + ".png";
    NumericKeyOfJoin("d", "10", ".png");
    assert DecimalValue("10") == 10 by { assert "10"[..1] == "1"; }
  }

  lemma KeyOfOne()
    ensures IsDigits(GetName("d/1.png")) && NumericKey("d/1.png") == 1
  {
    assert "d/1.png" == "d" + [Sep] + "1" + ".png";
    NumericKeyOfJoin("d", "1", ".png");
    assert DecimalValue("1") == 1 by { assert "1"[..0] == ""; }
  }

  lemma AllNumericThree(a: string, b: string, c: string)
    requires IsDigits(GetName(a)) && IsDigits(GetName(b)) && IsDigits(GetName(c))
    ensures AllNumeric([a, b, c])
  {
    var s := [a, b, c];
    assert forall i :: 0 <= i < 3 ==> s[i] == a || s[i] == b || s[i] == c;
  }

  lemma OrderThreeNumeric(a: string, b: string, c: string)
    requires AllNumeric([a, b, c])
    requires !NumericLe(b, c) && !NumericLe(a, c) && NumericLe(a, b)
    ensures OrderPaths([a, b, c]) == [c, a, b]
  {
    SortThree(a, b, c, NumericLe);
  }

  lemma NumericOrderAt(a: string, b: string, c: string)
    requires IsDigits(GetName(a)) && IsDigits(GetName(b)) && IsDigits(GetName(c))
    requires NumericKey(a) == 2 && NumericKey(b) == 10 && NumericKey(c) == 1
    ensures OrderPaths([a, b, c]) == [c, a, b]
  {
    AllNumericThree(a, b, c);
    OrderThreeNumeric(a, b, c);
  }

  /** Numeric names are ordered 1, 2, 10 and not 1, 10, 2. */
  lemma NumericOrderExample()
    ensures OrderPaths(["d/2.png", "d/10.png", "d/1.png"]) == ["d/1.png", "d/2.png", "d/10.png"]
  {
    KeyOfTwo();
    KeyOfTen();
    KeyOfOne();
    NumericOrderAt("d/2.png", "d/10.png", "d/1.png");
  }

  lemma BNotNumeric()
    ensures !IsDigits(GetName("d/b.png"))
  {
    assert "d/b.png" == "d" + [Sep] + "b" + ".png";
    GetNameOfJoin("d", "b", ".png");
  }

  lemma LexOrderAt(b: string, a: string)
    requires !IsDigits(GetName(b)) && !LexLe(b, a)
    ensures OrderPaths([b, a]) == [a, b]
  {
    assert !AllNumeric([b, a]) by { assert [b, a][0] == b; }
    SortTwo(b, a, LexLe);
  }

  lemma BAfterA()
    ensures !LexLe("d/b.png", "d/a.png")
  {
    assert "d/b.png" == "d/" + "b.png" && "d/a.png" == "d/" + "a.png";
    LexLeCommonPrefix("d/", "b.png", "a.png");
  }

  /** Other names are ordered as strings: "a" before "b". */
  lemma LexOrderExample()
    ensures OrderPaths(["d/b.png", "d/a.png"]) == ["d/a.png", "d/b.png"]
  {
    BNotNumeric();
    BAfterA();
    LexOrderAt("d/b.png", "d/a.png");
  }

  /** Steps per epoch: the number of examples divided by the batch size,
      rounded up; a zero batch size divides by zero. */
  function StepsPerEpoch(count: nat, batchSize: int): (r: Result<int>)
    ensures r.Err? <==> batchSize == 0
    ensures r.Err? ==> r.error == DivisionByZero
    ensures batchSize > 0 ==> r.Ok? && r.value * batchSize >= count && (r.value - 1) * batchSize < count
    ensures batchSize > 0 ==> r.Ok? && r.value >= 0 && (count > 0 ==> r.value >= 1)
    ensures batchSize < 0 ==> r.Ok? && count + batchSize < r.value * batchSize <= count
  {
    if batchSize == 0 then Err(DivisionByZero) else Ok(CeilDiv(count, batchSize))
  }

  /** Ten examples in batches of three take four steps. */
  lemma StepsPerEpochExample()
    ensures StepsPerEpoch(10, 3) == Ok(4)
  {
    CeilDivUnique(10, 3, 4);
  }

  /** `load_examples` without the tensor pipeline: discovery, truncation,
      ordering, the direction check, the batching queue's refusal of a
      negative batch size, and the epoch size. */
  function LoadExamples(listing: Option<seq<string>>, maxExamples: Option<int>,
                        direction: string, batchSize: int): (r: Result<Examples>)
    ensures listing.None? ==> r == Err(InputDirMissing)
    ensures r.Ok? ==> Discover(listing).Ok?
    ensures r.Ok? ==> r.value.count == |r.value.paths|
    ensures r.Ok? ==> multiset(r.value.paths) == multiset(Truncate(Discover(listing).value.0, maxExamples))
    ensures r.Ok? && maxExamples.Some? && maxExamples.value > 0 ==>
              0 < r.value.count <= maxExamples.value
    ensures r.Ok? && batchSize > 0 ==>
              r.value.stepsPerEpoch * batchSize >= r.value.count
              && (r.value.stepsPerEpoch - 1) * batchSize < r.value.count
    ensures Discover(listing).Ok? && PairSplit.ParseDirection(direction).Err? ==> r == Err(InvalidDirection)
    ensures Discover(listing).Ok? && PairSplit.ParseDirection(direction).Ok? ==>
              (r.Ok? <==> batchSize > 0)
    ensures Discover(listing).Err? ==> r == Err(Discover(listing).error)
    ensures Discover(listing).Ok? && PairSplit.ParseDirection(direction).Ok? && batchSize < 0 ==>
              r == Err(NegativeBatchSize)
    ensures Discover(listing).Ok? && PairSplit.ParseDirection(direction).Ok? && batchSize == 0 ==>
              r == Err(DivisionByZero)
    ensures r.Ok? ==> r.value.paths == OrderPaths(Truncate(Discover(listing).value.0, maxExamples))
    ensures r.Ok? ==> r.value.format == Discover(listing).value.1
                      && PairSplit.ParseDirection(direction) == Ok(r.value.direction)
                      && StepsPerEpoch(r.value.count, batchSize) == Ok(r.value.stepsPerEpoch)
  {
    match Discover(listing)
    case Err(e) => Err(e)
    case Ok(found) =>
      var kept := Truncate(found.0, maxExamples);
      var ordered := OrderPaths(kept);
      assert |ordered| == |kept| by {
        assert |multiset(ordered)| == |multiset(kept)|;
      }
      match PairSplit.ParseDirection(direction)
      case Err(e) => Err(e)
      case Ok(dir) =>
        if batchSize < 0 then Err(NegativeBatchSize)
        else match StepsPerEpoch(|ordered|, batchSize)
        case Err(e) => Err(e)
        case Ok(spe) => Ok(Examples(ordered, found.1, dir, |ordered|, spe))
  }

  /** The loaded paths are the kept files in the program's order: by value
      when every name is a number, with names of equal value (such as "1"
      and "01") in discovery order, else as strings; and they are numbers
      all round exactly when the kept files' names are. */
  lemma LoadedPathsOrdered(listing: Option<seq<string>>, maxExamples: Option<int>,
                           direction: string, batchSize: int)
    requires PairSplit.ParseDirection(direction).Ok? && batchSize != 0
    ensures LoadExamples(listing, maxExamples, direction, batchSize).Ok? ==>
      var p := LoadExamples(listing, maxExamples, direction, batchSize).value.paths;
      var kept := Truncate(Discover(listing).value.0, maxExamples);
      && (AllNumeric(p) <==> AllNumeric(kept))
      && (AllNumeric(p) ==>
            forall i, j :: 0 <= i < j < |p| ==>
              DecimalValue(GetName(p[i])) <= DecimalValue(GetName(p[j])))
      && (AllNumeric(p) ==> Stable(kept, p, NumericLe))
      && (!AllNumeric(p) ==> forall i, j :: 0 <= i < j < |p| ==> LexLe(p[i], p[j]))
  {
    if LoadExamples(listing, maxExamples, direction, batchSize).Ok? {
      var kept := Truncate(Discover(listing).value.0, maxExamples);
      assert LoadExamples(listing, maxExamples, direction, batchSize).value.paths == OrderPaths(kept);
      if AllNumeric(kept) {
        OrderPathsNumeric(kept);
      } else {
        OrderPathsLex(kept);
      }
    }
  }
}

=== FILE: filenames.dfy ===
/** The names `save_images` (pix2pix.py) gives to the three images it
    writes per example: "<name>-<kind>.png", prefixed with the global step
    as "%08d-" when images are saved during training. The writing itself is
    left out. */
module FileNames {
  import opened Common
  import opened PathNames

  datatype Kind = Inputs | Outputs | Targets

  function KindName(k: Kind): string {
    match k
    case Inputs => "inputs"
    case Outputs => "outputs"
    case Targets => "targets"
  }

  /** `"%0*d" % (width, n)` for n >= 0: at least `width` digits, zeros in front. */
  function PadDigits(n: nat, width: nat): (s: string)
    ensures IsDigits(s) && |s| == Max(width, |Digits(n)|)
    ensures DecimalValue(s) == n
  {
    var d := Digits(n);
    DecimalValueOfDigits(n);
    if |d| >= width then d
    else
      DecimalValueLeadingZeros(width - |d|, d);
      Zeros(width - |d|) + d
  }

  /** `"%08d" % n`; a negative number keeps its sign in front of the zeros. */
  function Format08(n: int): (s: string)
    ensures n >= 0 ==> IsDigits(s) && |s| == Max(8, |Digits(n)|) && DecimalValue(s) == n
    ensures n < 0 ==> |s| == 1 + Max(7, |Digits(-n)|)
                      && s[0] == '-' && IsDigits(s[1..]) && DecimalValue(s[1..]) == -n
  {
    if n >= 0 then PadDigits(n, 8) else "-" + PadDigits(-n, 7)
  }

  /** "-inputs.png", "-outputs.png" or "-targets.png". */
  function Suffix(k: Kind): (t: string)
    ensures |t| >= 11
  {
    "-" + KindName(k) + ".png"
  }

  /** The file name for one image of the example whose `get_name` is `name`. */
  function FileNameOf(name: string, kind: Kind, step: Option<int>): (f: string)
    ensures EndsWith(f, Suffix(kind))
    ensures step.None? ==> name <= f
    ensures step.Some? ==> Format08(step.value) + "-" <= f
    ensures step.None? ==> f[..|f| - |Suffix(kind)|] == name
    ensures step.Some? ==> var p := Format08(step.value) + "-";
              |f| == |p| + |name| + |Suffix(kind)| && f[|p|..|f| - |Suffix(kind)|] == name
  {
    var head := if step.None? then name else Format08(step.value) + "-" + name;
    var f := head + Suffix(kind);
    assert f[|head|..] == Suffix(kind);
    assert f[..|head|] == head;
    assert step.Some? ==> head[..|Format08(step.value)| + 1] == Format08(step.value) + "-";
    assert step.Some? ==> head[|Format08(step.value)| + 1..] == name;
    f
  }

  /** The file name for one image of the example read from `path`. */
  function ImageFileName(path: string, kind: Kind, step: Option<int>): (f: string)
    ensures Sep !in f
    ensures EndsWith(f, Suffix(kind))
    ensures step.None? ==> f[..|f| - |Suffix(kind)|] == GetName(path)
  {
    var name := GetName(path);
    var f := FileNameOf(name, kind, step);
    NoSepInFileName(name, kind, step);
    f
  }

  /** A file name built from a name without separators has none itself, so
      it stays inside the images directory it is joined to. */
  lemma NoSepInFileName(name: string, kind: Kind, step: Option<int>)
    requires Sep !in name
    ensures Sep !in FileNameOf(name, kind, step)
  {
    var t := Suffix(kind);
    NoSepInSuffix(kind);
    if step.Some? {
      NoSepInFormat08(step.value);
      assert FileNameOf(name, kind, step) == Format08(step.value) + "-" + name + t;
    } else {
      assert FileNameOf(name, kind, step) == name + t;
    }
  }

  lemma NoSepInSuffix(kind: Kind)
    ensures Sep !in Suffix(kind)
  {
    var t := Suffix(kind);
    match kind
    case Inputs => assert t == "-inputs.png";
    case Outputs => assert t == "-outputs.png";
    case Targets => assert t == "-targets.png";
  }

  lemma NoSepInDigits(s: string)
    requires AllDigitChars(s)
    ensures Sep !in s
  {
  }

  lemma NoSepInFormat08(n: int)
    ensures Sep !in Format08(n)
  {
    var p := Format08(n);
    if n >= 0 {
      NoSepInDigits(p);
    } else {
      NoSepInDigits(p[1..]);
      assert p == [p[0]] + p[1..];
    }
  }


  /** The character eleven places from the end of the suffix differs
      between the three kinds. */
  lemma SuffixMarker(k1: Kind, k2: Kind)
    requires k1 != k2
    ensures Suffix(k1)[|Suffix(k1)| - 11] != Suffix(k2)[|Suffix(k2)| - 11]
  {
  }

  /** The suffix tells the kinds apart, and then the stems are equal. */
  lemma KindFromSuffix(stem1: string, k1: Kind, stem2: string, k2: Kind)
    requires stem1 + Suffix(k1) == stem2 + Suffix(k2)
    ensures k1 == k2 && stem1 == stem2
  {
    var f := stem1 + Suffix(k1);
    var t1, t2 := Suffix(k1), Suffix(k2);
    assert f[|f| - 11] == t1[|t1| - 11];
    assert f[|f| - 11] == t2[|t2| - 11];
    if k1 != k2 {
      SuffixMarker(k1, k2);
    }
    assert f[..|stem1|] == stem1 && f[..|stem2|] == stem2;
  }

  /** Within one run, different examples or kinds never share a file name
      (examples with equal stems are the same file); in training, images of
      different global steps never share one either. */
  lemma FileNamesDistinct(n1: string, k1: Kind, s1: Option<nat>, n2: string, k2: Kind, s2: Option<nat>)
    requires s1.None? <==> s2.None?
    requires FileNameOf(n1, k1, s1) == FileNameOf(n2, k2, s2)
    ensures n1 == n2 && k1 == k2 && s1 == s2
  {
    if s1.None? {
      assert n1 + Suffix(k1) == n2 + Suffix(k2);
      KindFromSuffix(n1, k1, n2, k2);
    } else {
      SteppedNamesDistinct(n1, k1, s1.value, n2, k2, s2.value);
    }
  }

  lemma SteppedNamesDistinct(n1: string, k1: Kind, s1: nat, n2: string, k2: Kind, s2: nat)
    requires Format08(s1) + "-" + n1 + Suffix(k1) == Format08(s2) + "-" + n2 + Suffix(k2)
    ensures n1 == n2 && k1 == k2 && s1 == s2
  {
    var a, b := Format08(s1), Format08(s2);
    Regroup(a + "-", n1, Suffix(k1));
    Regroup(b + "-", n2, Suffix(k2));
    PrefixBeforeDash(a, n1 + Suffix(k1), b, n2 + Suffix(k2));
    KindFromSuffix(n1, k1, n2, k2);
  }

  /** `FileNamesDistinct` for the paths `save_images` receives. */
  lemma ImageFileNamesDistinct(p1: string, k1: Kind, s1: Option<nat>, p2: string, k2: Kind, s2: Option<nat>)
    requires s1.None? <==> s2.None?
    requires ImageFileName(p1, k1, s1) == ImageFileName(p2, k2, s2)
    ensures GetName(p1) == GetName(p2) && k1 == k2 && s1 == s2
  {
    FileNamesDistinct(GetName(p1), k1, s1, GetName(p2), k2, s2);
  }

  /** Two digit strings each followed by '-' can only begin the same string
      if they are equal. */
  lemma PrefixBeforeDash(a: string, x: string, b: string, y: string)
    requires IsDigits(a) && IsDigits(b)
    requires a + "-" + x == b + "-" + y
    ensures a == b && x == y
  {
    var f := a + "-" + x;
    assert f[|a|] == '-' && f[|b|] == '-';
    assert forall i :: 0 <= i < |a| ==> f[i] == a[i];
    assert forall i :: 0 <= i < |b| ==> f[i] == b[i];
    assert |a| == |b|;
    assert f[..|a|] == a && f[..|b|] == b;
    assert f[|a| + 1..] == x && f[|b| + 1..] == y;
  }

  lemma Regroup(p: string, n: string, t: string)
    ensures p + n + t == p + (n + t)
  {
  }
}

=== FILE: options.dfy ===
/** The checkpoint-option override at the start of `main` (pix2pix.py): in
    test and export mode a checkpoint is required, and the values it recorded
    for `which_direction`, `ngf` and `ndf` replace the ones given on the
    command line. The options namespace is a map from option name to value;
    reading `options.json` is a parameter (`None` when it cannot be read). */
module Options {
  import opened Common

  /** The only options taken from a checkpoint. */
  const CheckpointKeys: set<string> := {"which_direction", "ngf", "ndf"}

  /** A `--checkpoint` directory, reduced to the options it recorded. */
  datatype Checkpoint<V> = Checkpoint(saved: Option<map<string, V>>)

  /** The options after the override, or the error `main` raises. */
  function ApplyCheckpoint<V>(mode: Mode, checkpoint: Option<Checkpoint<V>>, opts: map<string, V>)
    : (r: Result<map<string, V>>)
    ensures mode == Train ==> r == Ok(opts)
    ensures mode != Train && checkpoint.None? ==> r == Err(CheckpointRequired)
    ensures mode != Train && checkpoint.Some? && checkpoint.value.saved.None? ==>
              r == Err(CheckpointOptionsMissing)
    ensures mode != Train && checkpoint.Some? && checkpoint.value.saved.Some? ==> r.Ok?
    ensures r.Ok? && mode != Train ==>
              var saved := checkpoint.value.saved.value;
              && r.value.Keys == opts.Keys + (saved.Keys * CheckpointKeys)
              && (forall k :: k in CheckpointKeys && k in saved ==> r.value[k] == saved[k])
              && (forall k :: k in opts && (k !in CheckpointKeys || k !in saved) ==> r.value[k] == opts[k])
  {
    if mode == Train then Ok(opts)
    else match checkpoint
      case None => Err(CheckpointRequired)
      case Some(c) =>
        match c.saved
        case None => Err(CheckpointOptionsMissing)
        case Some(saved) => Ok(opts + map k | k in saved.Keys * CheckpointKeys :: saved[k])
  }

  /** Loading the same checkpoint's options a second time changes nothing. */
  lemma ApplyCheckpointIdempotent<V>(mode: Mode, checkpoint: Option<Checkpoint<V>>, opts: map<string, V>)
    requires ApplyCheckpoint(mode, checkpoint, opts).Ok?
    ensures var once := ApplyCheckpoint(mode, checkpoint, opts).value;
            ApplyCheckpoint(mode, checkpoint, once) == Ok(once)
  {
    if mode != Train {
      var once := ApplyCheckpoint(mode, checkpoint, opts).value;
      var twice := ApplyCheckpoint(mode, checkpoint, once).value;
      assert twice.Keys == once.Keys;
      assert forall k :: k in twice ==> twice[k] == once[k];
      assert twice == once;
    }
  }

  /** Whatever the command line said, test and export use the direction
      recorded in the checkpoint when it recorded one. */
  lemma CheckpointDirectionWins<V>(mode: Mode, saved: map<string, V>, opts1: map<string, V>, opts2: map<string, V>)
    requires mode != Train && "which_direction" in saved
    ensures ApplyCheckpoint(mode, Some(Checkpoint(Some(saved))), opts1).value["which_direction"]
         == ApplyCheckpoint(mode, Some(Checkpoint(Some(saved))), opts2).value["which_direction"]
  {
  }
}

=== FILE: pairsplit.dfy ===
/** How one decoded training image becomes an (input, target) pair: the
    raster must be 64 rows of 512 columns, each row is cut at column 256
    into an A half and a B half, and `which_direction` decides which half is
    the input. Pixels are left abstract (type parameter `P`); the
    `[0, 1] -> [-1, 1]` rescaling applied to both halves is floating point
    and is not part of this model. */
module PairSplit {
  import opened Common

  datatype Direction = AtoB | BtoA

  const Height: nat := 64
  const Width: nat := 512
  const Half: nat := 256

  /** A raster as a sequence of rows. */
  type Image<P> = seq<seq<P>>

  datatype Pair<P> = Pair(input: Image<P>, target: Image<P>)

  /** The `which_direction` check: only "AtoB" and "BtoA" are accepted. */
  function ParseDirection(s: string): (r: Result<Direction>)
    ensures r == Ok(AtoB) <==> s == "AtoB"
    ensures r == Ok(BtoA) <==> s == "BtoA"
    ensures r.Err? ==> r.error == InvalidDirection
  {
    if s == "AtoB" then Ok(AtoB)
    else if s == "BtoA" then Ok(BtoA)
    else Err(InvalidDirection)
  }

  predicate HasShape<P>(img: Image<P>, h: nat, w: nat) {
    |img| == h && forall i :: 0 <= i < |img| ==> |img[i]| == w
  }

  /** The height and width assertions: 64 rows of 512 pixels, which is
      two halves of 256 side by side. */
  predicate WellShaped<P>(img: Image<P>)
    ensures WellShaped(img) ==> |img| == 64 && forall i :: 0 <= i < 64 ==> |img[i]| == 2 * 256
  {
    HasShape(img, Height, Width)
  }

  /** The input image cut at column 256 into a left and a right half. */
  function SplitColumns<P>(img: Image<P>): (halves: (Image<P>, Image<P>))
    requires WellShaped(img)
    ensures HasShape(halves.0, Height, Half) && HasShape(halves.1, Height, Half)
    ensures forall i, j :: 0 <= i < Height && 0 <= j < Half ==>
              halves.0[i][j] == img[i][j] && halves.1[i][j] == img[i][Half + j]
  {
    (seq(Height, i requires 0 <= i < Height => img[i][..Half]),
     seq(Height, i requires 0 <= i < Height => img[i][Half..]))
  }

  /** Puts two halves side by side again, row by row. */
  function JoinColumns<P>(a: Image<P>, b: Image<P>): (img: Image<P>)
    requires |a| == |b|
    ensures |img| == |a|
    ensures forall i :: 0 <= i < |img| ==> img[i] == a[i] + b[i]
  {
    seq(|a|, i requires 0 <= i < |a| => a[i] + b[i])
  }

  /** Splitting then joining gives back the raster. */
  lemma JoinOfSplit<P>(img: Image<P>)
    requires WellShaped(img)
    ensures JoinColumns(SplitColumns(img).0, SplitColumns(img).1) == img
  {
    var (a, b) := SplitColumns(img);
    var j := JoinColumns(a, b);
    forall i | 0 <= i < Height
      ensures j[i] == img[i]
    {
      assert img[i] == img[i][..Half] + img[i][Half..];
    }
  }

  /** Joining two 64 x 256 halves and splitting again gives back the halves. */
  lemma SplitOfJoin<P>(a: Image<P>, b: Image<P>)
    requires HasShape(a, Height, Half) && HasShape(b, Height, Half)
    ensures WellShaped(JoinColumns(a, b))
    ensures SplitColumns(JoinColumns(a, b)) == (a, b)
  {
    var img := JoinColumns(a, b);
    var (a', b') := SplitColumns(img);
    forall i | 0 <= i < Height
      ensures a'[i] == a[i] && b'[i] == b[i]
    {
      assert img[i] == a[i] + b[i];
      assert img[i][..Half] == a[i];
      assert img[i][Half..] == b[i];
    }
    assert a' == a && b' == b;
  }

  /** The per-image part of `load_examples`: the direction is checked when
      the graph is built, before any image is decoded, so an invalid
      direction is reported whatever the raster; then the shape assertions;
      then the split and the assignment of halves. */
  function LoadPair<P>(img: Image<P>, direction: string): (r: Result<Pair<P>>)
    ensures ParseDirection(direction).Err? ==> r == Err(InvalidDirection)
    ensures ParseDirection(direction).Ok? && !WellShaped(img) ==> r == Err(BadImageShape)
    ensures r.Ok? ==> WellShaped(img)
    ensures r.Ok? ==> HasShape(r.value.input, Height, Half) && HasShape(r.value.target, Height, Half)
    ensures r.Ok? && direction == "AtoB" ==>
              forall i :: 0 <= i < Height ==> r.value.input[i] + r.value.target[i] == img[i]
    ensures r.Ok? && direction == "BtoA" ==>
              forall i :: 0 <= i < Height ==> r.value.target[i] + r.value.input[i] == img[i]
  {
    match ParseDirection(direction)
    case Err(e) => Err(e)
    case Ok(d) =>
      if !WellShaped(img) then Err(BadImageShape)
      else
        var (a, b) := SplitColumns(img);
        assert forall i :: 0 <= i < Height ==> img[i] == a[i] + b[i] by {
          forall i | 0 <= i < Height ensures img[i] == a[i] + b[i] {
            assert img[i] == img[i][..Half] + img[i][Half..];
          }
        }
        match d
        case AtoB => Ok(Pair(a, b))
        case BtoA => Ok(Pair(b, a))
  }

  /** The two directions see the same halves, swapped; and a well-shaped
      raster with a valid direction always loads. */
  lemma DirectionsSwap<P>(img: Image<P>)
    ensures LoadPair(img, "AtoB").Ok? <==> WellShaped(img)
    ensures LoadPair(img, "BtoA").Ok? <==> WellShaped(img)
    ensures WellShaped(img) ==>
              LoadPair(img, "BtoA").value == Pair(LoadPair(img, "AtoB").value.target, LoadPair(img, "AtoB").value.input)
  {
  }
}

=== FILE: pathnames.dfy ===
/** The string rules `load_examples` and `save_images` apply to file paths:
    POSIX `os.path.basename`, the root part of `os.path.splitext`, the
    hidden-file and extension test of `glob`, `str.isdigit`, `int(...)`,
    `str(...)` with `%08d` padding, and Python's ordering of strings. */
module PathNames {

  const Sep: char := '/'
  const Dot: char := '.'

  /** `os.path.basename`: everything after the last separator. */
  function Basename(p: string): (b: string)
    ensures Sep !in b && |b| <= |p|
  {
    if |p| == 0 || p[|p| - 1] == Sep then ""
    else Basename(p[..|p| - 1]) + [p[|p| - 1]]
  }

  /** The base name is the longest suffix of `p` that holds no separator:
      it is a suffix, it has no separator, and it is all of `p` or is
      preceded by one. */
  lemma {:induction false} BasenameIsLastComponent(p: string)
    ensures var b := Basename(p);
      && Sep !in b
      && |b| <= |p| && b == p[|p| - |b|..]
      && (|b| < |p| ==> p[|p| - |b| - 1] == Sep)
  {
    if |p| > 0 && p[|p| - 1] != Sep {
      var q := p[..|p| - 1];
      BasenameIsLastComponent(q);
      var bq := Basename(q);
      assert p[|p| - |bq| - 1..] == q[|q| - |bq|..] + [p[|p| - 1]];
      if |bq| < |q| {
        assert p[|p| - |bq| - 2] == q[|q| - |bq| - 1];
      }
    }
  }

  /** Index of the last '.' in `s`, or -1 when there is none. */
  function LastDot(s: string): (i: int)
    ensures -1 <= i < |s|
  {
    if |s| == 0 then -1
    else if s[|s| - 1] == Dot then |s| - 1
    else LastDot(s[..|s| - 1])
  }

  /** `LastDot` finds a dot with no dot after it, and -1 only when there is
      no dot at all. */
  lemma {:induction false} LastDotIsLast(s: string)
    ensures var i := LastDot(s);
      && -1 <= i < |s|
      && (i >= 0 ==> s[i] == Dot)
      && (forall j :: i < j < |s| ==> s[j] != Dot)
  {
    if |s| > 0 && s[|s| - 1] != Dot {
      var q := s[..|s| - 1];
      LastDotIsLast(q);
      forall j | LastDot(s) < j < |s|
        ensures s[j] != Dot
      {
        if j < |q| {
          assert s[j] == q[j];
        }
      }
    }
  }

  predicate AllDots(s: string) {
    forall j :: 0 <= j < |s| ==> s[j] == Dot
  }

  /** The root that `os.path.splitext` returns for a base name: the name
      cut before its last '.', unless everything before that dot is dots
      (".bashrc", "..x"), in which case there is no extension. */
  function Stem(name: string): (stem: string)
    ensures stem <= name
  {
    var d := LastDot(name);
    if d >= 0 && !AllDots(name[..d]) then name[..d] else name
  }

  /** The root is a prefix of the name; when it is shorter, the rest is an
      extension (one dot, then no dot) after a root that is not all dots;
      when it is the whole name, the name has no such extension. */
  lemma StemSplitsAtLastDot(name: string)
    ensures var stem := Stem(name);
      && stem <= name
      && (stem != name ==> name[|stem|] == Dot && Dot !in name[|stem| + 1..])
      && (stem != name ==> !AllDots(stem))
      && (stem == name ==> LastDot(name) < 0 || AllDots(name[..LastDot(name)]))
  {
    LastDotIsLast(name);
    var d := LastDot(name);
    if d >= 0 && !AllDots(name[..d]) {
      var rest := name[d + 1..];
      forall k | 0 <= k < |rest|
        ensures rest[k] != Dot
      {
        assert rest[k] == name[d + 1 + k];
      }
    }
  }

  /** `get_name(path)`: the base name without its extension. */
  function GetName(path: string): (name: string)
    ensures Sep !in name && |name| <= |path|
  {
    var b := Basename(path);
    var stem := Stem(b);
    assert forall i :: 0 <= i < |stem| ==> stem[i] == b[i];
    stem
  }

  predicate EndsWith(s: string, suffix: string) {
    |suffix| <= |s| && s[|s| - |suffix|..] == suffix
  }

  /** Whether `glob` returns `path` for the pattern "*" + ext in its
      directory: the base name ends with `ext` and is not hidden (the
      pattern does not start with a dot, so dot files are skipped). */
  predicate MatchesGlob(path: string, ext: string)
    ensures MatchesGlob(path, ext) && IsExtension(ext) ==> |Basename(path)| > |ext|
  {
    var b := Basename(path);
    EndsWith(b, ext) && |b| > 0 && b[0] != Dot
  }

  /** An extension as the program globs for: a dot and then neither dots nor separators. */
  predicate IsExtension(ext: string) {
    |ext| > 0 && ext[0] == Dot && Dot !in ext[1..] && Sep !in ext
  }

  /** Joining a directory and a visible file name, then taking `get_name`,
      gives back the name without its extension. */
  lemma {:induction false} GetNameOfJoin(dir: string, stem: string, ext: string)
    requires |stem| > 0 && stem[0] != Dot && Sep !in stem
    requires IsExtension(ext)
    ensures GetName(dir + [Sep] + stem + ext) == stem
    ensures MatchesGlob(dir + [Sep] + stem + ext, ext)
  {
    var p := dir + [Sep] + stem + ext;
    var name := stem + ext;
    assert p == dir + [Sep] + name;
    BasenameOfJoin(dir, name);
    StemWithExtension(stem, ext);
    assert name[|name| - |ext|..] == ext;
  }

  /** `splitext` cuts a visible name exactly at the start of its extension. */
  lemma StemWithExtension(stem: string, ext: string)
    requires |stem| > 0 && stem[0] != Dot
    requires IsExtension(ext)
    ensures Stem(stem + ext) == stem
  {
    var name := stem + ext;
    assert name[|stem|] == Dot;
    forall j | |stem| < j < |name|
      ensures name[j] != Dot
    {
      assert name[j] == ext[1..][j - |stem| - 1];
    }
    LastDotIsLast(name);
    assert LastDot(name) == |stem|;
    assert name[..|stem|] == stem;
    assert !AllDots(stem) by { assert stem[0] != Dot; }
  }

  /** The base name of "dir/name" is `name` when `name` holds no separator. */
  lemma {:induction false} BasenameOfJoin(dir: string, name: string)
    requires Sep !in name
    ensures Basename(dir + [Sep] + name) == name
  {
    var p := dir + [Sep] + name;
    if |name| > 0 {
      var q := name[..|name| - 1];
      BasenameOfJoin(dir, q);
      assert p[..|p| - 1] == dir + [Sep] + q;
      assert name == q + [name[|name| - 1]];
    }
  }

  // ---- digits ----

  predicate IsDigitChar(c: char) { '0' <= c <= '9' }

  predicate AllDigitChars(s: string) {
    forall i :: 0 <= i < |s| ==> IsDigitChar(s[i])
  }

  /** `str.isdigit()` restricted to ASCII digits: non-empty and all digits.
      Such a string has neither a dot nor a separator. */
  predicate IsDigits(s: string)
    ensures IsDigits(s) ==> |s| > 0 && Dot !in s && Sep !in s
  {
    |s| > 0 && AllDigitChars(s)
  }

  /** A digit string as `str` writes numbers: no leading zero unless it is "0". */
  predicate Canonical(s: string) {
    IsDigits(s) && (|s| == 1 || s[0] != '0')
  }

  /** `int(s)` for a string of decimal digits; leading zeros are ignored.
      On a string written without leading zeros, `str` gives `s` back. */
  function DecimalValue(s: string): (v: nat)
    requires AllDigitChars(s)
    ensures Canonical(s) ==> Digits(v) == s
  {
    if |s| == 0 then 0
    else
      var t := s[..|s| - 1];
      var c := s[|s| - 1];
      var v := DecimalValue(t) * 10 + (c as int - '0' as int);
      if |s| > 1 && s[0] != '0' then
        assert t[0] == s[0] && Canonical(t);
        DigitsAppend(DecimalValue(t), c);
        assert s == t + [c];
        v
      else v
  }

  /** Writing a digit after a positive number's digits multiplies by ten
      and adds the digit. */
  lemma DigitsAppend(u: nat, c: char)
    requires u >= 1 && IsDigitChar(c)
    ensures Digits(u * 10 + (c as int - '0' as int)) == Digits(u) + [c]
  {
    var d := c as int - '0' as int;
    var n := u * 10 + d;
    assert n / 10 == u && n % 10 == d;
    assert DigitChar(d) as int == c as int;
  }

  function DigitChar(d: nat): (c: char)
    requires d < 10
    ensures IsDigitChar(c) && c as int - '0' as int == d
  {
    ('0' as int + d) as char
  }

  /** `str(n)` for a natural number: decimal digits with no leading zero. */
  function Digits(n: nat): (s: string)
    ensures IsDigits(s)
    ensures |s| > 1 ==> s[0] != '0'
  {
    if n < 10 then [DigitChar(n)]
    else Digits(n / 10) + [DigitChar(n % 10)]
  }

  /** `int(str(n)) == n`. */
  lemma {:induction false} DecimalValueOfDigits(n: nat)
    ensures DecimalValue(Digits(n)) == n
  {
    var s := Digits(n);
    if n >= 10 {
      DecimalValueOfDigits(n / 10);
      assert s[..|s| - 1] == Digits(n / 10);
    }
  }

  function Zeros(k: nat): (z: string)
    ensures |z| == k && AllDigitChars(z)
    ensures forall i :: 0 <= i < k ==> z[i] == '0'
  {
    if k == 0 then [] else Zeros(k - 1) + ['0']
  }

  lemma {:induction false} ValueOfZeros(k: nat)
    ensures DecimalValue(Zeros(k)) == 0
  {
    if k > 0 {
      ValueOfZeros(k - 1);
      assert Zeros(k)[..k - 1] == Zeros(k - 1);
    }
  }

  /** Leading zeros do not change `int(s)`. */
  lemma {:induction false} DecimalValueLeadingZeros(k: nat, s: string)
    requires AllDigitChars(s)
    ensures AllDigitChars(Zeros(k) + s)
    ensures DecimalValue(Zeros(k) + s) == DecimalValue(s)
  {
    var z := Zeros(k) + s;
    assert AllDigitChars(z) by {
      forall i | 0 <= i < |z|
        ensures IsDigitChar(z[i])
      {
        if i < k {
          assert z[i] == Zeros(k)[i];
        } else {
          assert z[i] == s[i - k];
        }
      }
    }
    if |s| == 0 {
      assert z == Zeros(k);
      ValueOfZeros(k);
    } else {
      var t := s[..|s| - 1];
      assert z[..|z| - 1] == Zeros(k) + t;
      DecimalValueLeadingZeros(k, t);
      assert z[|z| - 1] == s[|s| - 1];
    }
  }

  // ---- Python string order ----

  /** Python's `a <= b` on strings: code point by code point, and a proper
      prefix comes first. */
  predicate LexLe(a: string, b: string)
    ensures a <= b ==> LexLe(a, b)
  {
    if |a| == 0 then true
    else if |b| == 0 then false
    else if a[0] != b[0] then a[0] < b[0]
    else LexLe(a[1..], b[1..])
  }

  lemma {:induction false} LexLeTotal(a: string, b: string)
    ensures LexLe(a, b) || LexLe(b, a)
  {
    if |a| > 0 && |b| > 0 && a[0] == b[0] {
      LexLeTotal(a[1..], b[1..]);
    }
  }

  lemma {:induction false} LexLeTransitive(a: string, b: string, c: string)
    requires LexLe(a, b) && LexLe(b, c)
    ensures LexLe(a, c)
  {
    if |a| > 0 && |b| > 0 && |c| > 0 && a[0] == b[0] && b[0] == c[0] {
      LexLeTransitive(a[1..], b[1..], c[1..]);
    }
  }

  lemma {:induction false} LexLeAntisymmetric(a: string, b: string)
    requires LexLe(a, b) && LexLe(b, a)
    ensures a == b
  {
    if |a| > 0 && |b| > 0 {
      LexLeAntisymmetric(a[1..], b[1..]);
      assert a == [a[0]] + a[1..];
      assert b == [b[0]] + b[1..];
    }
  }

  /** Strings sharing a prefix compare as their remainders do, so paths in
      one directory are ordered by their file names. */
  lemma {:induction false} LexLeCommonPrefix(p: string, a: string, b: string)
    ensures LexLe(p + a, p + b) <==> LexLe(a, b)
  {
    if |p| > 0 {
      assert (p + a)[1..] == p[1..] + a;
      assert (p + b)[1..] == p[1..] + b;
      LexLeCommonPrefix(p[1..], a, b);
    } else {
      assert p + a == a && p + b == b;
    }
  }
}

=== FILE: pyarith.dfy ===
/** Python's integer operators, which differ from Dafny's Euclidean `/` and `%`
    when the divisor is negative: `//` rounds toward negative infinity, `%`
    takes the sign of the divisor, and `math.ceil(a / b)` rounds up. Also the
    prefix slice `s[:n]`, which counts a negative `n` from the end. */
module PyArith {
  import opened Common

  /** Python's `a // b`: the largest q with q * b <= a (for b > 0),
      or with q * b >= a (for b < 0). */
  function FloorDiv(a: int, b: int): (q: int)
    requires b != 0
    ensures b > 0 ==> q * b <= a < q * b + b
    ensures b < 0 ==> q * b + b < a <= q * b
  {
    if b > 0 then a / b else (-a) / (-b)
  }

  /** Python's `a % b`: the remainder that pairs with `FloorDiv`, carrying
      the sign of the divisor. */
  function PyMod(a: int, b: int): (r: int)
    requires b != 0
    ensures a == b * FloorDiv(a, b) + r
    ensures b > 0 ==> 0 <= r < b
    ensures b < 0 ==> b < r <= 0
  {
    a - b * FloorDiv(a, b)
  }

  /** `int(math.ceil(a / b))` under true division: the least q with
      q * b >= a (for b > 0). */
  function CeilDiv(a: int, b: int): (q: int)
    requires b != 0
    ensures b > 0 ==> a <= q * b < a + b
    ensures b < 0 ==> a + b < q * b <= a
  {
    -FloorDiv(-a, b)
  }

  /** Python's prefix slice `s[:n]`. */
  function SlicePrefix<T>(s: seq<T>, n: int): (r: seq<T>)
    ensures r <= s
    ensures n >= 0 ==> |r| == Min(n, |s|)
    ensures n < 0 ==> |r| == Max(0, |s| + n)
  {
    if n >= 0 then (if n <= |s| then s[..n] else s)
    else if |s| + n >= 0 then s[..|s| + n]
    else []
  }

  /** For a positive divisor, the ceiling quotient is the unique q with
      (q - 1) * b < a <= q * b. */
  lemma CeilDivUnique(a: int, b: int, q: int)
    requires b > 0
    ensures q == CeilDiv(a, b) <==> (q - 1) * b < a <= q * b
  {
    var c := CeilDiv(a, b);
    if (q - 1) * b < a <= q * b {
      MulStrict(q - 1, c, b);
      MulStrict(c - 1, q, b);
    }
  }

  /** Multiplying by a positive number preserves strict order, read backwards. */
  lemma MulStrict(x: int, y: int, b: int)
    requires b > 0 && x * b < y * b
    ensures x < y
  {
  }

  /** Euclidean division by a positive divisor has one quotient and one
      remainder. */
  lemma DivModUnique(a: int, b: int, q: int, r: int)
    requires b > 0 && a == q * b + r && 0 <= r < b
    ensures a / b == q && a % b == r
  {
    var d := q - a / b;
    assert d * b == a % b - r;
    if d >= 1 {
      MulAtLeast(b, d);
    } else if d <= -1 {
      MulAtLeast(b, -d);
    }
  }

  lemma MulAtLeast(a: int, b: int)
    requires a >= 0 && b >= 1
    ensures a * b >= a
  {
    assert a * b == a * (b - 1) + a;
  }
}

=== FILE: schedule.dfy ===
/** The control rules of `main` (pix2pix.py): how many steps a run takes,
    which periodic actions fire at each step, and how the global step is
    shown as an (epoch, step-in-epoch) pair. The session, the supervisor and
    everything a fired action writes are outside this model; the
    supervisor's stop request is a parameter. */
module Schedule {
  import opened Common
  import opened PyArith

  /** The budget when neither `--max_steps` nor `--max_epochs` is given: 2**32. */
  const DefaultMaxSteps: int := 0x1_0000_0000

  /** The budget before the test-mode cap: `max_steps` if given, else
      `steps_per_epoch * max_epochs` if given, else 2**32. A given value of
      0 is a budget of 0; only an absent option falls through. */
  function RequestedSteps(stepsPerEpoch: int, maxEpochs: Option<int>, maxSteps: Option<int>): (r: int)
    ensures maxSteps.Some? ==> r == maxSteps.value
    ensures maxSteps.None? && maxEpochs.Some? ==> r == stepsPerEpoch * maxEpochs.value
    ensures maxSteps.None? && maxEpochs.None? ==> r == DefaultMaxSteps
  {
    var byEpochs := if maxEpochs.Some? then stepsPerEpoch * maxEpochs.value else DefaultMaxSteps;
    if maxSteps.Some? then maxSteps.value else byEpochs
  }

  /** The `max_steps` the loop runs to: in test mode, at most one epoch. */
  function StepBudget(mode: Mode, stepsPerEpoch: int, maxEpochs: Option<int>, maxSteps: Option<int>): (r: int)
    ensures mode != Test ==> r == RequestedSteps(stepsPerEpoch, maxEpochs, maxSteps)
    ensures mode == Test ==> r <= stepsPerEpoch && r <= RequestedSteps(stepsPerEpoch, maxEpochs, maxSteps)
    ensures mode == Test ==> r == stepsPerEpoch || r == RequestedSteps(stepsPerEpoch, maxEpochs, maxSteps)
  {
    var requested := RequestedSteps(stepsPerEpoch, maxEpochs, maxSteps);
    if mode == Test then Min(stepsPerEpoch, requested) else requested
  }

  /** An explicit `max_steps` wins whatever `max_epochs` says. */
  lemma MaxStepsOverridesEpochs(mode: Mode, spe: int, e1: Option<int>, e2: Option<int>, s: int)
    ensures StepBudget(mode, spe, e1, Some(s)) == StepBudget(mode, spe, e2, Some(s))
    ensures mode == Train ==> StepBudget(mode, spe, e1, Some(s)) == s
  {
  }

  /** A test run covers exactly one epoch unless a smaller budget was asked
      for, and never more. */
  lemma TestRunsAtMostOneEpoch(spe: int, maxEpochs: Option<int>, maxSteps: Option<int>)
    requires spe >= 0
    ensures 0 <= Iterations(StepBudget(Test, spe, maxEpochs, maxSteps)) <= spe
    ensures maxSteps.None? && maxEpochs.Some? && maxEpochs.value >= 1 ==>
              Iterations(StepBudget(Test, spe, maxEpochs, maxSteps)) == spe
    ensures maxSteps.None? && maxEpochs.None? ==>
              Iterations(StepBudget(Test, spe, maxEpochs, maxSteps)) == Min(spe, DefaultMaxSteps)
  {
    if maxSteps.None? && maxEpochs.Some? && maxEpochs.value >= 1 {
      MulAtLeast(spe, maxEpochs.value);
    }
  }

  /** How many times `for step in range(n)` runs. */
  function Iterations(budget: int): (n: nat)
    ensures budget >= 0 ==> n == budget
    ensures budget < 0 ==> n == 0
  {
    Max(0, budget)
  }

  // ---- should(freq) ----

  /** `should(freq)` at loop index `step` of a run with budget `maxSteps`. */
  predicate Should(freq: int, step: int, maxSteps: int)
    ensures Should(freq, step, maxSteps) <==>
              freq > 0 && (PyMod(step + 1, freq) == 0 || step == maxSteps - 1)
  {
    freq > 0 && ((step + 1) % freq == 0 || step == maxSteps - 1)
  }

  /** A disabled action never fires; an enabled one fires at the last step. */
  lemma ShouldEdges(freq: int, maxSteps: int, step: int)
    ensures freq <= 0 ==> !Should(freq, step, maxSteps)
    ensures freq > 0 && maxSteps > 0 ==> Should(freq, maxSteps - 1, maxSteps)
  {
  }

  /** An enabled action fires at the end of every full period: at steps
      freq - 1, 2 * freq - 1, ... */
  lemma ShouldAtPeriodEnds(freq: int, k: int, maxSteps: int)
    requires freq > 0 && k >= 1
    ensures Should(freq, k * freq - 1, maxSteps)
  {
    DivModUnique(k * freq, freq, k, 0);
  }

  /** How many of the steps 0 .. n - 1 fire an action of frequency `freq`. */
  function FireCount(freq: int, n: nat, maxSteps: int): nat {
    if n == 0 then 0
    else FireCount(freq, n - 1, maxSteps) + (if Should(freq, n - 1, maxSteps) then 1 else 0)
  }

  lemma DivStep(n: nat, f: int)
    requires f > 0
    ensures (n + 1) / f == n / f + (if (n + 1) % f == 0 then 1 else 0)
  {
    var q, r := n / f, n % f;
    assert n == q * f + r && 0 <= r < f;
    if r == f - 1 {
      DivModUnique(n + 1, f, q + 1, 0);
    } else {
      DivModUnique(n + 1, f, q, r + 1);
    }
  }

  lemma {:induction false} FireCountBeforeLast(freq: int, n: nat, maxSteps: int)
    requires freq > 0 && n < maxSteps
    ensures FireCount(freq, n, maxSteps) == n / freq
  {
    if n > 0 {
      FireCountBeforeLast(freq, n - 1, maxSteps);
      DivStep(n - 1, freq);
    }
  }

  /** Over a whole run an enabled action fires ceil(max_steps / freq)
      times: once per full period and once more for a partial last period. */
  lemma FireCountOfRun(freq: int, maxSteps: nat)
    requires freq > 0
    ensures FireCount(freq, maxSteps, maxSteps) == CeilDiv(maxSteps, freq)
  {
    if maxSteps > 0 {
      FireCountBeforeLast(freq, maxSteps - 1, maxSteps);
      assert Should(freq, maxSteps - 1, maxSteps);
      CeilDivOfPredecessor(maxSteps, freq);
    }
  }

  // ---- the five periodic actions ----

  datatype Action = Summary | Progress | Trace | Display | Save

  /** `--summary_freq`, `--progress_freq`, `--trace_freq`, `--display_freq`, `--save_freq`. */
  datatype Frequencies = Frequencies(summary: int, progress: int, trace: int, display: int, save: int)

  const AllActions: set<Action> := {Summary, Progress, Trace, Display, Save}

  function FreqOf(f: Frequencies, a: Action): int {
    match a
    case Summary => f.summary
    case Progress => f.progress
    case Trace => f.trace
    case Display => f.display
    case Save => f.save
  }

  /** The actions that fire at loop index `step`. */
  function FiredAt(f: Frequencies, step: int, maxSteps: int): (fired: set<Action>)
    ensures forall a :: a in fired <==> Should(FreqOf(f, a), step, maxSteps)
  {
    set a | a in AllActions && Should(FreqOf(f, a), step, maxSteps)
  }

  /** The training loop's schedule: one entry per step run, holding the
      actions fired at that step. The supervisor's stop request, checked
      after each step's work, is given as the first step after which it
      answers yes (`None`: never). */
  method TrainingSchedule(f: Frequencies, maxSteps: int, stopAfter: Option<nat>)
    returns (log: seq<set<Action>>)
    ensures |log| == (if stopAfter.Some? && stopAfter.value < maxSteps
                      then stopAfter.value + 1 else Iterations(maxSteps))
    ensures forall i :: 0 <= i < |log| ==>
              forall a :: a in log[i] <==> Should(FreqOf(f, a), i, maxSteps)
  {
    log := [];
    var step := 0;
    while step < maxSteps
      invariant 0 <= step <= Iterations(maxSteps)
      invariant |log| == step
      invariant stopAfter.Some? ==> step <= stopAfter.value
      invariant forall i :: 0 <= i < step ==>
                  forall a :: a in log[i] <==> Should(FreqOf(f, a), i, maxSteps)
    {
      log := log + [FiredAt(f, step, maxSteps)];
      if stopAfter == Some(step) {
        return;
      }
      step := step + 1;
    }
  }

  /** An uninterrupted run ends with a step at which every enabled action
      fires, in particular a final save when `save_freq > 0`. */
  lemma LastStepFiresAllEnabled(f: Frequencies, maxSteps: int)
    requires maxSteps > 0
    ensures FiredAt(f, maxSteps - 1, maxSteps) == set a | a in AllActions && FreqOf(f, a) > 0
  {
  }

  // ---- progress display ----

  /** The progress line's epoch and step within the epoch: the epoch is the
      global step divided by the epoch size, rounded up; the step counts
      1 .. steps_per_epoch, from the remainder of the previous global step. */
  function ProgressOf(globalStep: int, stepsPerEpoch: int): (r: Result<(int, int)>)
    ensures r.Err? <==> stepsPerEpoch == 0
    ensures r.Err? ==> r.error == DivisionByZero
    ensures stepsPerEpoch > 0 ==>
              r.Ok? && 1 <= r.value.1 <= stepsPerEpoch
              && (r.value.0 - 1) * stepsPerEpoch + r.value.1 == globalStep
  {
    if stepsPerEpoch == 0 then Err(DivisionByZero)
    else
      var epoch := CeilDiv(globalStep, stepsPerEpoch);
      var step := PyMod(globalStep - 1, stepsPerEpoch) + 1;
      if stepsPerEpoch < 0 then Ok((epoch, step))
      else
        CeilDivOfPredecessor(globalStep, stepsPerEpoch);
        Ok((epoch, step))
  }

  /** ceil(g / s) == (g - 1) // s + 1 for a positive divisor. */
  lemma CeilDivOfPredecessor(g: int, s: int)
    requires s > 0
    ensures CeilDiv(g, s) == FloorDiv(g - 1, s) + 1
  {
    var q := FloorDiv(g - 1, s);
    assert q * s <= g - 1 < q * s + s;
    CeilDivUnique(g, s, q + 1);
  }

  /** The displayed pair is the only one with the step inside [1, spe]
      that adds back up to the global step. */
  lemma ProgressUnique(globalStep: int, spe: int, epoch: int, step: int)
    requires spe > 0
    ensures ProgressOf(globalStep, spe) == Ok((epoch, step))
            <==> 1 <= step <= spe && (epoch - 1) * spe + step == globalStep
  {
    if 1 <= step <= spe && (epoch - 1) * spe + step == globalStep {
      DivModUnique(globalStep - 1, spe, epoch - 1, step - 1);
      CeilDivOfPredecessor(globalStep, spe);
    }
  }

  /** One more global step moves one step on within the epoch, or to step 1
      of the next epoch after the last step of an epoch. */
  lemma ProgressAdvances(globalStep: int, spe: int)
    requires spe > 0
    ensures var (e, s) := ProgressOf(globalStep, spe).value;
            ProgressOf(globalStep + 1, spe).value == if s < spe then (e, s + 1) else (e + 1, 1)
  {
    var (e, s) := ProgressOf(globalStep, spe).value;
    var next := if s < spe then (e, s + 1) else (e + 1, 1);
    ProgressUnique(globalStep + 1, spe, next.0, next.1);
  }
}

=== FILE: sorting.dfy ===
/** Python's `sorted`, as `load_examples` uses it: a stable sort under a
    comparison that is total and transitive but may call distinct items
    equal (as a sort key does). Modelled as insertion sort over sequences;
    its promise is the one Python documents: a permutation of the input, in
    order, with equal items kept in their input order. */
module Sorting {

  ghost predicate Total<T(!new)>(le: (T, T) -> bool) {
    forall x, y :: le(x, y) || le(y, x)
  }

  ghost predicate Transitive<T(!new)>(le: (T, T) -> bool) {
    forall x, y, z :: le(x, y) && le(y, z) ==> le(x, z)
  }

  ghost predicate TotalPreorder<T(!new)>(le: (T, T) -> bool) {
    Total(le) && Transitive(le)
  }

  /** Every item is at most every later item. */
  ghost predicate Sorted<T>(s: seq<T>, le: (T, T) -> bool) {
    forall i, j :: 0 <= i < j < |s| ==> le(s[i], s[j])
  }

  /** Every item is at most the next one. */
  ghost predicate AdjacentSorted<T>(s: seq<T>, le: (T, T) -> bool) {
    forall i :: 0 <= i < |s| - 1 ==> le(s[i], s[i + 1])
  }

  /** Items the comparison cannot tell apart. */
  predicate Equivalent<T>(le: (T, T) -> bool, a: T, b: T) {
    le(a, b) && le(b, a)
  }

  /** The items of `s` equivalent to `k`, in their order in `s`. */
  function ClassOf<T>(s: seq<T>, k: T, le: (T, T) -> bool): seq<T> {
    if |s| == 0 then []
    else (if Equivalent(le, s[0], k) then [s[0]] else []) + ClassOf(s[1..], k, le)
  }

  /** Stability: every class of equivalent items keeps its input order. */
  ghost predicate Stable<T(!new)>(s: seq<T>, r: seq<T>, le: (T, T) -> bool) {
    forall k :: ClassOf(r, k, le) == ClassOf(s, k, le)
  }

  /** Inserts `x` in front of the first item it is not above. */
  function Insert<T>(x: T, s: seq<T>, le: (T, T) -> bool): (r: seq<T>)
    ensures |r| == |s| + 1
    ensures r[0] == x || (|s| > 0 && r[0] == s[0])
  {
    if |s| == 0 || le(x, s[0]) then [x] + s
    else
      assert s == [s[0]] + s[1..];
      [s[0]] + Insert(x, s[1..], le)
  }

  /** `sorted(s)`: insertion of each item, back to front, into the sorted rest. */
  function Sort<T>(s: seq<T>, le: (T, T) -> bool): (r: seq<T>)
    ensures |r| == |s|
  {
    if |s| == 0 then []
    else
      assert s == [s[0]] + s[1..];
      Insert(s[0], Sort(s[1..], le), le)
  }

  /** Insertion adds `x` and loses nothing. */
  lemma {:induction false} InsertPermutes<T>(x: T, s: seq<T>, le: (T, T) -> bool)
    ensures multiset(Insert(x, s, le)) == multiset(s) + multiset{x}
  {
    if |s| > 0 && !le(x, s[0]) {
      InsertPermutes(x, s[1..], le);
      assert s == [s[0]] + s[1..];
    }
  }

  /** `Sort` returns a permutation of its input. */
  lemma {:induction false} SortPermutes<T>(s: seq<T>, le: (T, T) -> bool)
    ensures multiset(Sort(s, le)) == multiset(s)
  {
    if |s| > 0 {
      SortPermutes(s[1..], le);
      InsertPermutes(s[0], Sort(s[1..], le), le);
      assert s == [s[0]] + s[1..];
    }
  }

  /** Under a total comparison, insertion keeps neighbours in order. */
  lemma {:induction false} InsertAdjacentSorted<T(!new)>(x: T, s: seq<T>, le: (T, T) -> bool)
    requires Total(le)
    requires AdjacentSorted(s, le)
    ensures AdjacentSorted(Insert(x, s, le), le)
  {
    var r := Insert(x, s, le);
    if |s| == 0 || le(x, s[0]) {
      assert r == [x] + s;
      forall i | 0 <= i < |r| - 1
        ensures le(r[i], r[i + 1])
      {
        if i > 0 {
          assert r[i] == s[i - 1] && r[i + 1] == s[i];
        }
      }
    } else {
      var rest := Insert(x, s[1..], le);
      InsertAdjacentSorted(x, s[1..], le);
      assert r == [s[0]] + rest;
      assert le(s[0], x);
      assert le(s[0], rest[0]) by {
        if rest[0] != x {
          assert rest[0] == s[1];
        }
      }
      forall i | 0 <= i < |r| - 1
        ensures le(r[i], r[i + 1])
      {
        if i > 0 {
          assert r[i] == rest[i - 1] && r[i + 1] == rest[i];
        }
      }
    }
  }

  lemma {:induction false} SortAdjacentSorted<T(!new)>(s: seq<T>, le: (T, T) -> bool)
    requires Total(le)
    ensures AdjacentSorted(Sort(s, le), le)
  {
    if |s| > 0 {
      SortAdjacentSorted(s[1..], le);
      InsertAdjacentSorted(s[0], Sort(s[1..], le), le);
    }
  }

  /** With a transitive comparison, neighbours in order means all in order. */
  lemma {:induction false} AdjacentToSorted<T(!new)>(s: seq<T>, le: (T, T) -> bool)
    requires Transitive(le)
    requires AdjacentSorted(s, le)
    ensures Sorted(s, le)
  {
    if |s| > 1 {
      var t := s[1..];
      assert AdjacentSorted(t, le) by {
        forall i | 0 <= i < |t| - 1 ensures le(t[i], t[i + 1]) {
          assert t[i] == s[i + 1] && t[i + 1] == s[i + 2];
        }
      }
      AdjacentToSorted(t, le);
      forall i, j | 0 <= i < j < |s|
        ensures le(s[i], s[j])
      {
        if i > 0 {
          assert s[i] == t[i - 1] && s[j] == t[j - 1];
        } else if j > 1 {
          assert s[1] == t[0] && s[j] == t[j - 1];
          assert le(s[0], s[1]) && le(s[1], s[j]);
        }
      }
    }
  }

  /** Under a total preorder, `Sort` returns its items in order. */
  lemma SortSorted<T(!new)>(s: seq<T>, le: (T, T) -> bool)
    requires TotalPreorder(le)
    ensures Sorted(Sort(s, le), le)
  {
    SortAdjacentSorted(s, le);
    AdjacentToSorted(Sort(s, le), le);
  }

  lemma ClassOfCons<T>(e: T, t: seq<T>, k: T, le: (T, T) -> bool)
    ensures ClassOf([e] + t, k, le) == (if Equivalent(le, e, k) then [e] else []) + ClassOf(t, k, le)
  {
    assert ([e] + t)[0] == e && ([e] + t)[1..] == t;
  }

  /** An item that `x` is strictly above is in another class than `x`. */
  lemma BelowIsOtherClass<T(!new)>(x: T, e: T, k: T, le: (T, T) -> bool)
    requires Transitive(le)
    requires Equivalent(le, x, k) && !le(x, e)
    ensures !Equivalent(le, e, k)
  {
  }

  lemma {:induction false} ClassOfInsert<T(!new)>(x: T, s: seq<T>, k: T, le: (T, T) -> bool)
    requires Transitive(le)
    ensures ClassOf(Insert(x, s, le), k, le)
         == (if Equivalent(le, x, k) then [x] else []) + ClassOf(s, k, le)
  {
    if |s| == 0 || le(x, s[0]) {
      ClassOfCons(x, s, k, le);
    } else {
      var rest := Insert(x, s[1..], le);
      ClassOfInsert(x, s[1..], k, le);
      ClassOfCons(s[0], rest, k, le);
      ClassOfCons(s[0], s[1..], k, le);
      assert s == [s[0]] + s[1..];
      if Equivalent(le, x, k) {
        BelowIsOtherClass(x, s[0], k, le);
      }
    }
  }

  /** `Sort` is stable. */
  lemma SortStable<T(!new)>(s: seq<T>, le: (T, T) -> bool)
    requires Transitive(le)
    ensures Stable(s, Sort(s, le), le)
  {
    forall k
      ensures ClassOf(Sort(s, le), k, le) == ClassOf(s, k, le)
    {
      SortStableAt(s, k, le);
    }
  }

  lemma {:induction false} SortStableAt<T(!new)>(s: seq<T>, k: T, le: (T, T) -> bool)
    requires Transitive(le)
    ensures ClassOf(Sort(s, le), k, le) == ClassOf(s, k, le)
  {
    if |s| > 0 {
      SortStableAt(s[1..], k, le);
      ClassOfInsert(s[0], Sort(s[1..], le), k, le);
      ClassOfCons(s[0], s[1..], k, le);
      assert s == [s[0]] + s[1..];
    }
  }

  lemma InsertFront<T>(x: T, s: seq<T>, le: (T, T) -> bool)
    requires |s| == 0 || le(x, s[0])
    ensures Insert(x, s, le) == [x] + s
  {
  }

  lemma InsertPast<T>(x: T, s: seq<T>, le: (T, T) -> bool)
    requires |s| > 0 && !le(x, s[0])
    ensures Insert(x, s, le) == [s[0]] + Insert(x, s[1..], le)
  {
  }

  lemma SortCons<T>(x: T, s: seq<T>, le: (T, T) -> bool)
    ensures Sort([x] + s, le) == Insert(x, Sort(s, le), le)
  {
    assert ([x] + s)[0] == x && ([x] + s)[1..] == s;
  }

  /** Worked example: three items whose order is c < a < b come out as c, a, b. */
  lemma SortThree<T>(a: T, b: T, c: T, le: (T, T) -> bool)
    requires !le(b, c) && !le(a, c) && le(a, b)
    ensures Sort([a, b, c], le) == [c, a, b]
  {
    SortCons(c, [], le);
    InsertFront(c, [], le);
    assert Sort([c], le) == [c];
    SortCons(b, [c], le);
    InsertPast(b, [c], le);
    InsertFront(b, [], le);
    assert Sort([b, c], le) == [c, b];
    SortCons(a, [b, c], le);
    InsertPast(a, [c, b], le);
    assert [c, b][1..] == [b];
    InsertFront(a, [b], le);
    assert [a] + [b, c] == [a, b, c];
  }

  /** Worked example: two items out of order are swapped. */
  lemma SortTwo<T>(b: T, a: T, le: (T, T) -> bool)
    requires !le(b, a)
    ensures Sort([b, a], le) == [a, b]
  {
    SortCons(a, [], le);
    InsertFront(a, [], le);
    SortCons(b, [a], le);
    InsertPast(b, [a], le);
    InsertFront(b, [], le);
    assert [b] + [a] == [b, a];
  }
}
